=== FILE: README.md ===
# Holland Plumbing website: the server's rules, in Dafny

The site is an Express application for a London plumbing business. Apart
from routing and page rendering, its server holds a handful of pure rules,
and this project models and proves them:

- **Quote requests** (`POST /make-an-order`). The posted fields are
  normalised: a missing field becomes `""` and every field is trimmed. A
  field the body parser delivered as an array or object has no `trim`, so
  the handler throws. The normalised form is validated into a map of
  per-field messages. With errors, the form is sent back and the orders
  file is left alone. Otherwise the orders file is read tolerantly, and a
  record `ORD-<n+1>` stamped with the current time is put at the FRONT of
  the list of n stored orders. The whole list is then written back.
- **Tolerant store read** (`safeReadOrders`). The parsed file when it is
  a JSON array, and `[]` for a missing or unreadable file, malformed JSON
  or any other JSON value.
- **Contact links** (`waLink`, `telLink`). A WhatsApp link keeps only the
  ASCII digits of the number. A `tel:` link drops every white-space
  character.
- **Latest-work gallery** (`loadLatestWork`). The image files of the work
  directory (`.jpg`, `.jpeg`, `.png`, `.webp`, any ASCII case) are sorted,
  the first twenty are kept, and each becomes `/image/work/<name>`. An
  unreadable directory gives no entries.

Modules follow those parts: `Orders` (orders.dfy), `Links` (links.dfy),
`Gallery` (gallery.dfy). They rest on `JsText` (js_text.dfy) and `Seqs`
(seqs.dfy). `JsText` models the JavaScript string primitives the rules
use: the white-space class shared by `\s` and `trim`, `trim` itself,
`length` in UTF-16 code units, and the decimal rendering of a count.
`Wrappers` (wrappers.dfy) holds `Option`.

Inputs stand in for the outside world:
- the orders file is a `Stored` value: `ReadFailed`, `NotAnArray` or
  `OrderList(orders)`;
- the clock reading is a `now` string;
- the directory listing is an `Option<seq<string>>`, with `None` for a
  directory that cannot be read;
- the collation of `localeCompare` is an abstract comparator `le`. It is
  required to be a total preorder.

Two points of the code are easy to misread, and the model follows the code
on both. The handler `unshift`s each accepted order, so the stored list is
newest first and position 0 holds the highest number. The minimum length of
the details is measured in UTF-16 code units (`String.prototype.length`),
not in characters, so a character outside the Basic Multilingual Plane
counts twice.

## Model

| member | source | states |
|---|---|---|
| `Orders.Normalise` | server.js:119-127 | the form exists exactly when every posted field is a string; each field is the posted text trimmed, or `""` when the field was not posted |
| `Orders.NormaliseField` | server.js:120-126 | a field posted as an array or object has no value (the handler throws); an absent field is `""`; a posted string becomes its trim |
| `Orders.NormalisedFields` | server.js:119-127 | an absent field is `""`; a posted one is the trim of the posted text; no normalised field begins or ends with white space |
| `Orders.Validate` | server.js:129-134 | messages exactly for: empty full name, empty phone, empty service type, details shorter than 10 UTF-16 units; never for email, address or preferred date; each message is that field's fixed text |
| `Orders.Message` | server.js:130-134 | exactly full name, phone, service type and details have a message; email, address and preferred date never do |
| `Orders.ValidateEmptyIffComplete` | server.js:129-136 | no messages if and only if the form is complete; an incomplete form always gets at least one message |
| `Orders.BlankRequiredFieldRejected` | server.js:120-136 | a required field (full name, phone, service type or details) posted as white space only is treated as missing: the form is sent back with that field's message and the store is not touched |
| `Orders.DetailsLengthInCodeUnits` | server.js:133-134 | five astral-plane characters pass the 10-unit minimum and nine plain characters do not |
| `Orders.Submit` | server.js:118-155 | crashes exactly when normalisation fails; accepts exactly the acceptable forms; a rejection carries the normalised form and its non-empty messages and leaves the store as it was; an acceptance carries the id numbered one past the stored count, carries `now` and the normalised form, and the list handed to the write is the record followed by the old list unchanged |
| `Orders.SafeReadOrders` | server.js:60-68 | an array read is returned as it is; a non-empty result only ever comes from an array, so failures and non-arrays give `[]` |
| `Orders.OrderId` | server.js:146 | the id is `ORD-` followed by ASCII digits whose decimal value is the number, with a leading zero only for 0 |
| `Orders.ParseOrderId` | server.js:146 | whatever number is read back from an id renders to that same id |
| `Orders.ParseOrderIdOfOrderId` | server.js:146 | reading the number back out of `ORD-<n>` gives n |
| `Orders.OrderIdInjective` | server.js:146 | different numbers give different ids |
| `Orders.PrependKeepsNumbering` | server.js:145-151 | putting the next-numbered record in front of a well-numbered list keeps it well numbered |
| `Orders.SubmitKeepsNumbering` | server.js:144-152 | every submission keeps the stored list well numbered: position i of n holds `ORD-<n-i>` |
| `Orders.WellNumberedIdsDistinct` | server.js:146-151 | the ids of a well-numbered list are pairwise different |
| `Orders.RunKeepsNumbering` | server.js:118-155 | over any sequence of requests the list stays well numbered and grows by exactly the number of acceptable requests |
| `Orders.RunFromEmpty` | server.js:144-152 | starting from a file that can be written but is missing, unreadable or holds no array or an empty one, after k accepted submissions the ids front to back are `ORD-k` … `ORD-1`, all different |
| `Links.WaLink` | server.js:28-30 | the link is the WhatsApp prefix followed only by ASCII digits; each digit of the number occurs in it exactly as often as in the number, and no other character does |
| `Links.WaLinkAppend` | server.js:28-30 | digits keep their order: for a number written in two parts, the digits in the link are the first part's digits followed by the second part's |
| `Links.WaLinkOfDigits` | server.js:28-30 | a number that is bare digits appears in the link unchanged |
| `Links.WaLinkStable` | server.js:28-30 | formatting the digits of a link again gives the same link |
| `Links.TelLink` | server.js:31-33 | the link is `tel:` followed by no white space; every other character occurs exactly as often as in the number |
| `Links.TelLinkAppend` | server.js:31-33 | characters keep their order: for a number written in two parts, what follows `tel:` is the first part's kept characters followed by the second part's |
| `Links.TelLinkOfUnspaced` | server.js:31-33 | a number without white space appears in the link unchanged |
| `Seqs.Filter` | server.js:28-33 | the kept elements are exactly those satisfying the test, each with its original multiplicity |
| `Seqs.FilterAppend` | server.js:28-33 | filtering respects concatenation, so kept elements stay in their original order |
| `Seqs.FilterIdempotent` | server.js:28-33 | filtering twice is filtering once |
| `JsText.Trim` | server.js:120-126 | the result has no white space at either end and is the input with only white-space runs cut from its two ends |
| `JsText.TrimOfUnique` | server.js:120-126 | there is only one such trimmed remainder, so it is an independent definition of `trim` |
| `JsText.TrimIdempotent` | server.js:120-126 | trimming twice is trimming once |
| `JsText.TrimEmptyIffAllSpace` | server.js:120-126 | a string trims to `""` exactly when it is all white space |
| `JsText.Utf16Length` | server.js:133 | the length lies between the character count and twice it, and equals the character count exactly when every character is in the Basic Multilingual Plane |
| `JsText.Utf16LengthAppend` | server.js:133 | the length of a concatenation is the sum of the lengths |
| `JsText.Utf16LengthOfChar` | server.js:133 | one character is two units exactly when its code point is U+10000 or above, and one unit otherwise; with the previous row this fixes the length of every string |
| `JsText.JsSpaceExamples` | server.js:31-33 | the white-space class used by `\s` and `trim` holds tab, line feed, carriage return, space, no-break space, line separator, ideographic space and the byte order mark, and not next line, zero-width space or the Mongolian vowel separator |
| `JsText.Decimal` | server.js:146 | a non-empty string of ASCII digits with no leading zero except for 0 itself |
| `JsText.ParseDecimalOfDecimal` | server.js:146 | reading back the decimal rendering of n gives n |
| `JsText.DecimalInjective` | server.js:146 | different counts render differently |
| `Gallery.SortBy` | server.js:45 | the result is sorted by the comparator and is a permutation of the input |
| `Gallery.Insert` | server.js:45 | inserting into a sorted list keeps it sorted and adds exactly that one element |
| `Gallery.Images` | server.js:44 | every kept name passes the extension test; a name that passes keeps its multiplicity in the listing, and every other name is dropped |
| `Gallery.SelectWork` | server.js:42-47 | at most 20 names (exactly min(20, #images)), all image names of the listing, in comparator order, drawn from the images, and every image left out may come after every image kept |
| `Gallery.LatestWork` | server.js:38-55 | an unreadable directory gives `[]`; otherwise each entry is `/image/work/` followed by an image name of the listing, entries follow the comparator, there are min(20, #images) of them, their names are a sub-multiset of the listing's images, every image left out may come after every image kept, and the names are exactly `SelectWork` of the listing, so `SelectWorkIsReference` applies to them |
| `Gallery.SortedUnique` | server.js:45 | under a comparator without ties, two sorted permutations of the same names are equal |
| `Gallery.SelectWorkIsReference` | server.js:42-47 | under a comparator without ties, the gallery's names are the first twenty of ANY sorted arrangement of the directory's images |
| `Gallery.ImageNameExamples` | server.js:44 | the extension test ignores ASCII case, needs the dot and anchors at the end of the name |
| `JsText.LowerAscii` | server.js:44 | ASCII-only lower-casing: upper-case ASCII letters become their lower-case letters and every other character is left as it is. That is the case folding a non-Unicode `/i` pattern applies to the ASCII letters it is written with, since its canonicalisation never maps a non-ASCII character onto an ASCII one |
| `Gallery.ImageNameCaseInsensitive` | server.js:44 | a name passes the extension test exactly when its ASCII lower-case form does |
| `Gallery.ImageNameBySuffix` | server.js:44 | any stem followed by a dot and `jpg`, `jpeg`, `png` or `webp` in any ASCII case passes the extension test |
| `Gallery.ImageNameHasDot` | server.js:44 | a name that passes has a dot four or five characters from its end |
| `Gallery.ImageNameIff` | server.js:44 | a name passes the extension test exactly when some dot in it is followed by nothing but `jpg`, `jpeg`, `png` or `webp` in any ASCII case |
| `Gallery.NoDotNotImageName` | server.js:44 | a name without a dot never passes the extension test |
| `Gallery.LastCharNotImageName` | server.js:44 | the test is anchored at the end: a name whose last character is not `g`, `G`, `p` or `P` never passes |

## Left out

- Express set-up, routing, view rendering, static files, the 404 handler
  and `app.listen` (server.js:5-13, 79-116, 157-166). They are framework
  wiring with no rule of their own. The site settings object
  (server.js:16-25) is data only.
- File and JSON I/O (`readFileSync`, `writeFileSync`, `JSON.parse`,
  `JSON.stringify`, `readdirSync`). Reading is replaced by the `Stored`
  value and the optional listing. The `Stored` value a `Step` returns is
  what the handler hands to `writeFileSync`. Stored array elements are
  modelled as order records. The handler only counts them and never looks
  inside.
- Orders.Submit: every write of the orders file is taken to succeed.
  `safeWriteOrders` (server.js:70-72, called at server.js:152) has no
  `try`, so in the source a failed write (a missing `data/` directory, a
  read-only file) throws after validation has passed: the client gets a
  500 page and nothing is stored. The model does not have that outcome,
  and `Run`, `RunKeepsNumbering` and `RunFromEmpty` speak of a file that
  can always be written.
- `nowISO` (server.js:74-76). The clock is nondeterministic, so `now` is a
  parameter.
- `localeCompare` with numeric collation (server.js:45). Its library
  semantics are not visible here, so `le` is an abstract total preorder.
  Ties are kept in listing order by the insertion used, as the stable
  `Array.prototype.sort` does, but stability is not stated as a property.
- Gallery.SelectWorkIsReference: uniqueness is proved only for a
  comparator without ties. Under ties the selection is sorted and minimal
  but which tied name comes first is not stated.
- Several server processes sharing `data/orders.json`. Within the one
  process that server.js:166 starts, the read, `unshift` and write of
  server.js:144-152 are synchronous (`readFileSync`, `writeFileSync`, no
  `await` or callback in between), so the event loop runs each handler's
  block to the end before the next one starts. Requests therefore reach the
  store one after another, which is what `Run` models. Only two processes
  writing the same file could both read n orders and both write
  `ORD-<n+1>`, losing one; such a deployment is not modelled.
- Orders.Submit: `orders.length + 1` is a JavaScript number and arrays hold
  at most 2^32-1 elements. The model's counts are unbounded naturals, which
  agree with the source for every list that fits in memory.
- `String(number)` in the link helpers is the identity here, because both
  helpers are only ever called with the string settings of the site.
- JavaScript strings are UTF-16 code-unit sequences and may hold lone
  surrogates. Dafny strings are sequences of Unicode scalar values, so lone
  surrogates are not modelled. `length` is counted as UTF-16 units
  (`JsText.Utf16Length`).
- The exception thrown for a structured field is modelled as the `Crashed`
  response. What Express's default error handler then renders (a 500 page)
  is not modelled.
- Console logging and the debug route (server.js:51-52, 87-91).
- public/js/main.js: browser code (scroll listeners, observers, timers,
  CSS class toggling) with no rule to state.

=== FILE: gallery.dfy ===
/** The "latest work" gallery: the image files of the work directory,
    sorted, the first twenty of them, each turned into a URL. The directory
    listing is an input (None when the directory cannot be read) and the
    collation order is an abstract comparator `le`, read as "may come
    before". */
module Gallery {

  import opened Wrappers
  import opened Seqs
  import opened JsText

  const MaxWork := 20
  const WorkUrlPrefix := "/image/work/"

  /** One gallery entry, as handed to the view. */
  datatype WorkItem = WorkItem(image: string)

  /** One of the four extensions the gallery shows, lower case and
      without the dot. */
  predicate IsImageExtension(e: string) {
    e == "jpg" || e == "jpeg" || e == "png" || e == "webp"
  }

  /** A lower-case name matching `\.(jpg|jpeg|png|webp)$`: some dot in it is
      followed by one of the extensions and nothing else. */
  predicate HasImageExtension(l: string) {
    exists k :: 0 <= k < |l| && l[k] == '.' && IsImageExtension(l[k + 1..])
  }

  /** The file-name pattern `\.(jpg|jpeg|png|webp)$` with the `i` flag. */
  predicate IsImageName(f: string) {
    HasImageExtension(LowerAscii(f))
  }

  /** A comparator `sort` can use consistently: any two names are
      comparable, and the order is transitive. Ties are allowed. */
  ghost predicate TotalPreorder(le: (string, string) -> bool) {
    && (forall a, b :: le(a, b) || le(b, a))
    && (forall a, b, c :: le(a, b) && le(b, c) ==> le(a, c))
  }

  /** A total preorder with no ties between different names. */
  ghost predicate TotalOrder(le: (string, string) -> bool) {
    && TotalPreorder(le)
    && (forall a, b :: le(a, b) && le(b, a) ==> a == b)
  }

  predicate SortedBy(s: seq<string>, le: (string, string) -> bool) {
    forall i, j :: 0 <= i < j < |s| ==> le(s[i], s[j])
  }

  /** The head of a sorted list that x may not precede may precede
      everything in the rest of the list with x inserted. */
  lemma HeadPrecedesInsert(x: string, s: seq<string>, rest: seq<string>, le: (string, string) -> bool)
    requires TotalPreorder(le) && SortedBy(s, le) && s != [] && !le(x, s[0])
    requires multiset(rest) == multiset(s[1..]) + multiset{x}
    ensures forall k :: 0 <= k < |rest| ==> le(s[0], rest[k])
  {
    forall k | 0 <= k < |rest|
      ensures le(s[0], rest[k])
    {
      assert rest[k] in multiset(rest);
      if rest[k] != x {
        assert rest[k] in s[1..];
      }
    }
  }

  /** Keeping the head in front of the rest with x inserted keeps the list
      sorted and adds x. */
  lemma InsertBehindHead(x: string, s: seq<string>, rest: seq<string>, le: (string, string) -> bool)
    requires TotalPreorder(le) && SortedBy(s, le) && s != [] && !le(x, s[0])
    requires SortedBy(rest, le) && multiset(rest) == multiset(s[1..]) + multiset{x}
    ensures SortedBy([s[0]] + rest, le)
    ensures multiset([s[0]] + rest) == multiset(s) + multiset{x}
  {
    assert s == [s[0]] + s[1..];
    HeadPrecedesInsert(x, s, rest, le);
  }

  /** Puts x in front of the first element it may precede, so that x stays
      ahead of the elements it ties with. */
  function Insert(x: string, s: seq<string>, le: (string, string) -> bool): (r: seq<string>)
    requires TotalPreorder(le) && SortedBy(s, le)
    ensures SortedBy(r, le)
    ensures multiset(r) == multiset(s) + multiset{x}
  {
    if s == [] || le(x, s[0]) then [x] + s
    else
      var rest := Insert(x, s[1..], le);
      InsertBehindHead(x, s, rest, le);
      [s[0]] + rest
  }

  /** Sorting by an insertion that keeps ties in their original order, as
      `Array.prototype.sort` does. */
  function SortBy(s: seq<string>, le: (string, string) -> bool): (r: seq<string>)
    requires TotalPreorder(le)
    ensures SortedBy(r, le)
    ensures multiset(r) == multiset(s)
  {
    if s == [] then []
    else
      assert s == [s[0]] + s[1..];
      Insert(s[0], SortBy(s[1..], le), le)
  }

  /** The image files of a listing, in listing order. */
  function Images(listing: seq<string>): (images: seq<string>)
    ensures forall i :: 0 <= i < |images| ==> IsImageName(images[i])
    ensures forall f :: multiset(images)[f] == (if IsImageName(f) then multiset(listing)[f] else 0)
  {
    Filter(IsImageName, listing)
  }

  function Min(a: int, b: int): int {
    if a <= b then a else b
  }

  /** In a sorted sequence, each of the first n may come before everything
      after them. */
  lemma SortedPrefixFirst(sorted: seq<string>, n: nat, le: (string, string) -> bool)
    requires SortedBy(sorted, le) && n <= |sorted|
    ensures multiset(sorted) - multiset(sorted[..n]) == multiset(sorted[n..])
    ensures forall i, f :: 0 <= i < n && f in multiset(sorted) - multiset(sorted[..n]) ==> le(sorted[i], f)
  {
    assert sorted == sorted[..n] + sorted[n..];
    assert multiset(sorted) == multiset(sorted[..n]) + multiset(sorted[n..]);
    forall i, f | 0 <= i < n && f in multiset(sorted[n..])
      ensures le(sorted[i], f)
    {
      assert f in sorted[n..];
      var j :| n <= j < |sorted| && sorted[j] == f;
    }
  }

  lemma SortedPrefix(sorted: seq<string>, n: nat, le: (string, string) -> bool)
    requires SortedBy(sorted, le) && n <= |sorted|
    ensures SortedBy(sorted[..n], le)
  {
  }

  /** The first n of a sorted arrangement of the images are images of the
      listing, in order, and they come first. */
  lemma SortedImagesPrefix(listing: seq<string>, sorted: seq<string>, n: nat, le: (string, string) -> bool)
    requires SortedBy(sorted, le) && multiset(sorted) == multiset(Images(listing))
    requires n <= |sorted|
    ensures |sorted| == |Images(listing)|
    ensures forall i :: 0 <= i < n ==> IsImageName(sorted[i]) && sorted[i] in listing
    ensures multiset(sorted[..n]) <= multiset(Images(listing))
    ensures forall i, f :: 0 <= i < n && f in multiset(Images(listing)) - multiset(sorted[..n]) ==> le(sorted[i], f)
  {
    var images := Images(listing);
    assert |multiset(sorted)| == |multiset(images)|;
    SortedPrefixFirst(sorted, n, le);
    forall i | 0 <= i < n
      ensures IsImageName(sorted[i]) && sorted[i] in listing
    {
      assert sorted[i] in multiset(images);
    }
    assert sorted == sorted[..n] + sorted[n..];
  }

  /** The file names the gallery shows: the image files, sorted, the first
      twenty. They are the twenty that come first under `le`: every image
      left out may come after every image shown. */
  function SelectWork(listing: seq<string>, le: (string, string) -> bool): (kept: seq<string>)
    requires TotalPreorder(le)
    ensures |kept| == Min(MaxWork, |Images(listing)|)
    ensures forall i :: 0 <= i < |kept| ==> IsImageName(kept[i]) && kept[i] in listing
    ensures SortedBy(kept, le)
    ensures multiset(kept) <= multiset(Images(listing))
    ensures forall i, f :: 0 <= i < |kept| && f in multiset(Images(listing)) - multiset(kept) ==> le(kept[i], f)
  {
    var sorted := SortBy(Images(listing), le);
    var n := Min(MaxWork, |sorted|);
    SortedImagesPrefix(listing, sorted, n, le);
    SortedPrefix(sorted, n, le);
    sorted[..n]
  }

  /** The file name an entry was built from. */
  function FileOf(item: WorkItem): string {
    if |item.image| >= |WorkUrlPrefix| && item.image[..|WorkUrlPrefix|] == WorkUrlPrefix
    then item.image[|WorkUrlPrefix|..]
    else item.image
  }

  function Files(items: seq<WorkItem>): (files: seq<string>)
    ensures |files| == |items|
    ensures forall i :: 0 <= i < |items| ==> files[i] == FileOf(items[i])
  {
    seq(|items|, i requires 0 <= i < |items| => FileOf(items[i]))
  }

  /** `loadLatestWork`: an unreadable directory gives no entries; otherwise
      at most twenty entries, each the URL of an image file of the listing,
      in `le` order, no image more often than the listing has it, and they
      are the images that come first. */
  function LatestWork(listing: Option<seq<string>>, le: (string, string) -> bool): (r: seq<WorkItem>)
    requires TotalPreorder(le)
    ensures listing.None? ==> r == []
    ensures |r| <= MaxWork
    ensures listing.Some? ==> |r| == Min(MaxWork, |Images(listing.value)|)
    ensures forall i :: 0 <= i < |r| ==> r[i].image == WorkUrlPrefix + FileOf(r[i])
    ensures listing.Some? ==> forall i :: 0 <= i < |r| ==> IsImageName(FileOf(r[i])) && FileOf(r[i]) in listing.value
    ensures forall i, j :: 0 <= i < j < |r| ==> le(FileOf(r[i]), FileOf(r[j]))
    ensures listing.Some? ==> multiset(Files(r)) <= multiset(Images(listing.value))
    ensures listing.Some? ==>
      forall i, f :: 0 <= i < |r| && f in multiset(Images(listing.value)) - multiset(Files(r)) ==> le(FileOf(r[i]), f)
    ensures listing.Some? ==> Files(r) == SelectWork(listing.value, le)
  {
    match listing
    case None => []
    case Some(names) =>
      var items := Entries(SelectWork(names, le));
      EntriesOfSelection(names, le);
      items
  }

  /** The entries built from the selection carry the selection's facts over
      to their file names. */
  lemma EntriesOfSelection(names: seq<string>, le: (string, string) -> bool)
    requires TotalPreorder(le)
    ensures var r := Entries(SelectWork(names, le));
      && (forall i :: 0 <= i < |r| ==> IsImageName(FileOf(r[i])) && FileOf(r[i]) in names)
      && (forall i, j :: 0 <= i < j < |r| ==> le(FileOf(r[i]), FileOf(r[j])))
      && (forall i, f :: 0 <= i < |r| && f in multiset(Images(names)) - multiset(Files(r)) ==> le(FileOf(r[i]), f))
  {
    var kept := SelectWork(names, le);
    EntryFiles(kept);
  }

  lemma EntryFiles(files: seq<string>)
    ensures forall i :: 0 <= i < |files| ==> FileOf(Entries(files)[i]) == files[i]
  {
    var r := Entries(files);
    assert forall i :: 0 <= i < |r| ==> Files(r)[i] == FileOf(r[i]);
  }

  /** One entry per file name, its URL under the work prefix. */
  function Entries(files: seq<string>): (items: seq<WorkItem>)
    ensures |items| == |files|
    ensures forall i :: 0 <= i < |items| ==> items[i].image == WorkUrlPrefix + files[i]
    ensures Files(items) == files
  {
    var items := seq(|files|, i requires 0 <= i < |files| => WorkItem(WorkUrlPrefix + files[i]));
    forall i | 0 <= i < |items| ensures FileOf(items[i]) == files[i] {
      assert (WorkUrlPrefix + files[i])[..|WorkUrlPrefix|] == WorkUrlPrefix;
    }
    items
  }

  /** Under a comparator without ties there is only one sorted arrangement
      of a collection of names. */
  lemma {:induction false} SortedUnique(a: seq<string>, b: seq<string>, le: (string, string) -> bool)
    requires TotalOrder(le)
    requires SortedBy(a, le) && SortedBy(b, le) && multiset(a) == multiset(b)
    ensures a == b
  {
    if a != [] {
      assert |b| == |a| by {
        assert |multiset(a)| == |multiset(b)|;
      }
      assert a[0] in multiset(b);
      assert b[0] in multiset(a);
      var i :| 0 <= i < |a| && a[i] == b[0];
      var j :| 0 <= j < |b| && b[j] == a[0];
      assert le(a[0], a[i]) && le(b[0], b[j]);
      assert a[0] == b[0];
      assert a == [a[0]] + a[1..];
      assert b == [b[0]] + b[1..];
      assert multiset(a[1..]) == multiset(a) - multiset{a[0]};
      assert multiset(b[1..]) == multiset(b) - multiset{b[0]};
      SortedUnique(a[1..], b[1..], le);
    }
  }

  /** Independent reference for the selection: take ANY sorted
      arrangement of the directory's images and keep its first twenty. With
      a comparator without ties, that is what the gallery shows. */
  lemma SelectWorkIsReference(listing: seq<string>, le: (string, string) -> bool, arranged: seq<string>)
    requires TotalOrder(le)
    requires SortedBy(arranged, le) && multiset(arranged) == multiset(Images(listing))
    ensures SelectWork(listing, le) == arranged[..Min(MaxWork, |arranged|)]
  {
    SortedUnique(SortBy(Images(listing), le), arranged, le);
    assert |arranged| == |Images(listing)| by {
      assert |multiset(arranged)| == |multiset(Images(listing))|;
    }
  }

  /** The extension test ignores ASCII case: a name and its lower-cased
      form are both image names or neither is. */
  lemma ImageNameCaseInsensitive(f: string)
    ensures IsImageName(f) <==> IsImageName(LowerAscii(f))
  {
    LowerAsciiIdempotent(f);
  }

  /** The extension test, restated without lower-casing the whole name: a
      name passes exactly when it has a dot followed by nothing but one of
      the four extensions, in any ASCII case. */
  lemma ImageNameIff(f: string)
    ensures IsImageName(f) <==>
      exists k :: 0 <= k < |f| && f[k] == '.' && IsImageExtension(LowerAscii(f[k + 1..]))
  {
    var l := LowerAscii(f);
    forall k | 0 <= k < |f|
      ensures (l[k] == '.' && IsImageExtension(l[k + 1..])) <==>
              (f[k] == '.' && IsImageExtension(LowerAscii(f[k + 1..])))
    {
      LowerAsciiSlice(f, k + 1);
    }
  }

  /** Any name, followed by a dot and one of the four extensions written in
      any ASCII case, is an image name. */
  lemma ImageNameBySuffix(stem: string, ext: string)
    requires IsImageExtension(LowerAscii(ext))
    ensures IsImageName(stem + ("." + ext))
  {
    var f := stem + ("." + ext);
    var k := |stem|;
    assert f[k] == '.' && f[k + 1..] == ext;
    ImageNameIff(f);
  }

  /** Every extension ends in `g` or `p`, after at least three letters. */
  lemma ImageExtensionShape(e: string)
    ensures IsImageExtension(e) ==> 3 <= |e| <= 4 && (e[|e| - 1] == 'g' || e[|e| - 1] == 'p')
  {
  }

  /** An image name ends with a dot followed by three or four more
      characters: the dot is required. */
  lemma ImageNameHasDot(f: string)
    requires IsImageName(f)
    ensures |f| >= 4
    ensures f[|f| - 4] == '.' || f[|f| - 5] == '.'
  {
    var l := LowerAscii(f);
    var k :| 0 <= k < |l| && l[k] == '.' && IsImageExtension(l[k + 1..]);
    var e := l[k + 1..];
    ImageExtensionShape(e);
    assert |e| == |f| - k - 1;
    assert f[k] == '.';
  }

  /** A name without a dot is never an image name. */
  lemma NoDotNotImageName(f: string)
    requires forall k :: 0 <= k < |f| ==> f[k] != '.'
    ensures !IsImageName(f)
  {
    var l := LowerAscii(f);
    forall k | 0 <= k < |l|
      ensures l[k] != '.'
    {
      assert f[k] != '.';
    }
  }

  /** The pattern is anchored at the end: a name whose last character is
      not one an extension ends with is never an image name. */
  lemma LastCharNotImageName(f: string)
    requires f != [] && f[|f| - 1] != 'g' && f[|f| - 1] != 'G' && f[|f| - 1] != 'p' && f[|f| - 1] != 'P'
    ensures !IsImageName(f)
  {
    var l := LowerAscii(f);
    assert l[|l| - 1] != 'g' && l[|l| - 1] != 'p';
    forall k | 0 <= k < |l|
      ensures l[k] == '.' ==> !IsImageExtension(l[k + 1..])
    {
      var e := l[k + 1..];
      ImageExtensionShape(e);
      if e != [] {
        assert e[|e| - 1] == l[|l| - 1];
      }
    }
  }

  /** The extension test ignores ASCII case, needs the dot and anchors at
      the very end of the name. */
  lemma ImageNameExamples()
    ensures IsImageName("bathroom-01.JPG")
    ensures !IsImageName("jpg")
    ensures !IsImageName("photo.jpg.bak")
  {
    assert LowerAscii("JPG") == "jpg";
    ImageNameBySuffix("bathroom-01", "JPG");
    assert "bathroom-01" + ("." + "JPG") == "bathroom-01.JPG";
    NoDotNotImageName("jpg");
    LastCharNotImageName("photo.jpg.bak");
  }
}

=== FILE: js_text.dfy ===
/** The JavaScript string primitives the server leans on: the white-space
    class shared by the `\s` pattern and `String.prototype.trim`, `trim`
    itself, `length` (UTF-16 code units), ASCII digits, ASCII case folding
    and the decimal rendering of a non-negative integer. */
module JsText {

  import opened Wrappers

  /** WhiteSpace or LineTerminator in the ECMAScript grammar: tab, line feed,
      vertical tab, form feed, carriage return, space, no-break space, the
      Unicode space separators, line and paragraph separators and the byte
      order mark. */
  predicate IsJsSpace(c: char) {
    var n := c as int;
    || n == 0x09 || n == 0x0A || n == 0x0B || n == 0x0C || n == 0x0D
    || n == 0x20 || n == 0xA0 || n == 0x1680
    || (0x2000 <= n <= 0x200A)
    || n == 0x2028 || n == 0x2029 || n == 0x202F || n == 0x205F
    || n == 0x3000 || n == 0xFEFF
  }

  /** The `\d` class without the Unicode flag: ASCII digits only. */
  predicate IsAsciiDigit(c: char) {
    '0' <= c <= '9'
  }

  /** Pins the class against section 12.2 and 12.3 of ECMA-262: the
      separators count, while next line, zero-width space and the Mongolian
      vowel separator (no longer a space separator) do not. */
  lemma JsSpaceExamples()
    ensures IsJsSpace('\t') && IsJsSpace('\n') && IsJsSpace('\r') && IsJsSpace(' ')
    ensures IsJsSpace('\U{A0}') && IsJsSpace('\U{2028}') && IsJsSpace('\U{3000}') && IsJsSpace('\U{FEFF}')
    ensures !IsJsSpace('\U{85}') && !IsJsSpace('\U{200B}') && !IsJsSpace('\U{180E}') && !IsJsSpace('0')
  {
  }

  predicate IsNotJsSpace(c: char) {
    !IsJsSpace(c)
  }

  predicate AllSpace(s: string) {
    forall k :: 0 <= k < |s| ==> IsJsSpace(s[k])
  }

  /** Neither begins nor ends with white space. */
  predicate IsTrimmed(s: string) {
    s == [] || (!IsJsSpace(s[0]) && !IsJsSpace(s[|s| - 1]))
  }

  /** r is what is left of s once a run of white space is cut from each end,
      with nothing but white space cut. */
  ghost predicate IsTrimOf(s: string, r: string) {
    && IsTrimmed(r)
    && exists i, j :: 0 <= i <= j <= |s| && r == s[i..j] && AllSpace(s[..i]) && AllSpace(s[j..])
  }

  function TrimStart(s: string): (r: string)
    ensures |r| <= |s| && r == s[|s| - |r|..]
    ensures r == [] || !IsJsSpace(r[0])
    ensures AllSpace(s[..|s| - |r|])
  {
    if s != [] && IsJsSpace(s[0]) then
      var r := TrimStart(s[1..]);
      assert s[..|s| - |r|] == [s[0]] + s[1..][..|s| - 1 - |r|];
      r
    else
      s
  }

  function TrimEnd(s: string): (r: string)
    ensures |r| <= |s| && r == s[..|r|]
    ensures r == [] || !IsJsSpace(r[|r| - 1])
    ensures AllSpace(s[|r|..])
  {
    if s != [] && IsJsSpace(s[|s| - 1]) then
      var r := TrimEnd(s[..|s| - 1]);
      assert s[|r|..] == s[..|s| - 1][|r|..] + [s[|s| - 1]];
      r
    else
      s
  }

  /** `String.prototype.trim`. */
  function Trim(s: string): (r: string)
    ensures IsTrimOf(s, r)
  {
    var t := TrimStart(s);
    var r := TrimEnd(t);
    TrimWitness(s, t, r);
    r
  }

  /** The two halves of Trim cut white space only, and leave a trimmed
      string. */
  lemma TrimWitness(s: string, t: string, r: string)
    requires |t| <= |s| && t == s[|s| - |t|..] && AllSpace(s[..|s| - |t|])
    requires t == [] || !IsJsSpace(t[0])
    requires |r| <= |t| && r == t[..|r|] && AllSpace(t[|r|..])
    requires r == [] || !IsJsSpace(r[|r| - 1])
    ensures IsTrimOf(s, r)
  {
    var i := |s| - |t|;
    var j := i + |r|;
    assert r == s[i..j];
    assert s[j..] == t[|r|..];
    assert r != [] ==> r[0] == t[0];
  }

  /** Spells out one way of cutting s down to r in terms of s's own
      characters. */
  lemma TrimCut(s: string, r: string, i: nat, j: nat)
    requires i <= j <= |s| && r == s[i..j] && AllSpace(s[..i]) && AllSpace(s[j..])
    ensures forall k :: 0 <= k < i ==> IsJsSpace(s[k])
    ensures forall k :: j <= k < |s| ==> IsJsSpace(s[k])
    ensures forall k :: i <= k < j ==> s[k] == r[k - i]
  {
    forall k | 0 <= k < i ensures IsJsSpace(s[k]) {
      assert s[..i][k] == s[k];
    }
    forall k | j <= k < |s| ensures IsJsSpace(s[k]) {
      assert s[j..][k - j] == s[k];
    }
  }

  /** The trim of a string is unique: any two ways of cutting white space
      from the ends that leave a trimmed string leave the same one. */
  lemma TrimOfUnique(s: string, r1: string, r2: string)
    requires IsTrimOf(s, r1) && IsTrimOf(s, r2)
    ensures r1 == r2
  {
    var i1, j1 :| 0 <= i1 <= j1 <= |s| && r1 == s[i1..j1] && AllSpace(s[..i1]) && AllSpace(s[j1..]);
    var i2, j2 :| 0 <= i2 <= j2 <= |s| && r2 == s[i2..j2] && AllSpace(s[..i2]) && AllSpace(s[j2..]);
    TrimCut(s, r1, i1, j1);
    TrimCut(s, r2, i2, j2);
    // a non-empty trim starts at the first character of s that is not white
    // space and ends after the last one
    if r1 != [] && r2 != [] {
      assert i1 == i2 && j1 == j2;
    }
  }

  /** Trimming a trimmed string changes nothing; in particular trimming is
      idempotent. */
  lemma TrimOfTrimmed(s: string)
    requires IsTrimmed(s)
    ensures Trim(s) == s
  {
    TrimmedIsOwnTrim(s);
    var t := Trim(s);
    TrimOfUnique(s, t, s);
  }

  lemma TrimmedIsOwnTrim(s: string)
    requires IsTrimmed(s)
    ensures IsTrimOf(s, s)
  {
    assert s == s[0..|s|] && AllSpace(s[..0]) && AllSpace(s[|s|..]);
  }

  lemma TrimIdempotent(s: string)
    ensures Trim(Trim(s)) == Trim(s)
  {
    TrimOfTrimmed(Trim(s));
  }

  /** A string of nothing but white space trims to the empty string, and
      only such a string does. */
  lemma TrimEmptyIffAllSpace(s: string)
    ensures Trim(s) == "" <==> AllSpace(s)
  {
    if AllSpace(s) {
      AllSpaceTrimsEmpty(s);
    } else {
      var k :| 0 <= k < |s| && !IsJsSpace(s[k]);
      TrimKeepsNonSpace(s, k);
    }
  }

  lemma AllSpaceTrimsEmpty(s: string)
    requires AllSpace(s)
    ensures Trim(s) == ""
  {
    assert IsTrimOf(s, "") by {
      assert s[0..0] == "" && AllSpace(s[..0]) && s[0..] == s;
    }
    TrimOfUnique(s, Trim(s), "");
  }

  /** A character that is not white space survives trimming. */
  lemma TrimKeepsNonSpace(s: string, k: nat)
    requires k < |s| && !IsJsSpace(s[k])
    ensures Trim(s) != ""
  {
    var t := Trim(s);
    var i, j :| 0 <= i <= j <= |s| && t == s[i..j] && AllSpace(s[..i]) && AllSpace(s[j..]);
    TrimCut(s, t, i, j);
  }

  /** The number of UTF-16 code units of one character: two for a
      character outside the Basic Multilingual Plane. */
  function Utf16Units(c: char): nat {
    if c as int >= 0x1_0000 then 2 else 1
  }

  /** `String.prototype.length`, which counts UTF-16 code units. */
  function Utf16Length(s: string): (n: nat)
    ensures |s| <= n <= 2 * |s|
    ensures n == |s| <==> forall i :: 0 <= i < |s| ==> Utf16Units(s[i]) == 1
  {
    if s == [] then 0 else Utf16Units(s[0]) + Utf16Length(s[1..])
  }

  /** The length of a concatenation is the sum of the lengths. */
  lemma {:induction false} Utf16LengthAppend(a: string, b: string)
    ensures Utf16Length(a + b) == Utf16Length(a) + Utf16Length(b)
  {
    if a != [] {
      assert (a + b)[0] == a[0];
      assert (a + b)[1..] == a[1..] + b;
      Utf16LengthAppend(a[1..], b);
    } else {
      assert a + b == b;
    }
  }

  /** One character counts one unit, or two outside the Basic Multilingual
      Plane. With the previous lemma this fixes the length of every
      string. */
  lemma Utf16LengthOfChar(c: char)
    ensures Utf16Length([c]) == Utf16Units(c)
    ensures Utf16Units(c) == 2 <==> c as int >= 0x1_0000
  {
    assert [c][1..] == [];
  }

  /** ASCII-only lower-casing, the case folding a non-Unicode `/i` pattern
      applies to the ASCII letters it is written with. */
  function LowerAscii(s: string): (r: string)
    ensures |r| == |s|
    ensures forall i :: 0 <= i < |s| ==> (r[i] == s[i] <==> !('A' <= s[i] <= 'Z'))
    ensures forall i :: 0 <= i < |s| && 'A' <= s[i] <= 'Z' ==> 'a' <= r[i] <= 'z'
    ensures forall i :: 0 <= i < |s| && 'A' <= s[i] <= 'Z' ==> r[i] as int == s[i] as int + 32
  {
    seq(|s|, i requires 0 <= i < |s| =>
      if 'A' <= s[i] <= 'Z' then (s[i] as int + 32) as char else s[i])
  }

  /** Lower-casing distributes over concatenation. */
  lemma LowerAsciiAppend(a: string, b: string)
    ensures LowerAscii(a + b) == LowerAscii(a) + LowerAscii(b)
  {
  }

  /** Lower-casing commutes with dropping a prefix. */
  lemma LowerAsciiSlice(s: string, k: nat)
    requires k <= |s|
    ensures LowerAscii(s)[k..] == LowerAscii(s[k..])
  {
    assert s == s[..k] + s[k..];
    LowerAsciiAppend(s[..k], s[k..]);
  }

  lemma LowerAsciiIdempotent(s: string)
    ensures LowerAscii(LowerAscii(s)) == LowerAscii(s)
  {
  }

  function DigitChar(d: nat): (c: char)
    requires d < 10
    ensures IsAsciiDigit(c)
  {
    ('0' as int + d) as char
  }

  function DigitValue(c: char): (d: nat)
    requires IsAsciiDigit(c)
    ensures d < 10 && DigitChar(d) == c
  {
    c as int - '0' as int
  }

  predicate AllDigits(s: string) {
    forall i :: 0 <= i < |s| ==> IsAsciiDigit(s[i])
  }

  /** `String(n)` for a non-negative integer: its decimal digits, most
      significant first, with no leading zero. */
  function Decimal(n: nat): (r: string)
    ensures |r| >= 1 && AllDigits(r)
    ensures r[0] == '0' <==> n == 0
  {
    if n < 10 then [DigitChar(n)] else Decimal(n / 10) + [DigitChar(n % 10)]
  }

  /** The value of a string of decimal digits. */
  function DecimalValue(s: string): nat
    requires AllDigits(s)
  {
    if s == [] then 0 else DecimalValue(s[..|s| - 1]) * 10 + DigitValue(s[|s| - 1])
  }

  /** Reading a non-empty digit string with no leading zero (or "0"). */
  function ParseDecimal(s: string): (r: Option<nat>)
    ensures r.Some? ==> Decimal(r.value) == s
  {
    if |s| >= 1 && AllDigits(s) && (s[0] != '0' || s == "0") then
      DecimalRoundTrip(s);
      Some(DecimalValue(s))
    else None
  }

  /** Reading back what `Decimal` wrote gives the number. */
  lemma {:induction false} DecimalValueOfDecimal(n: nat)
    ensures DecimalValue(Decimal(n)) == n
  {
    if n >= 10 {
      var d := Decimal(n);
      assert d[..|d| - 1] == Decimal(n / 10);
      DecimalValueOfDecimal(n / 10);
    }
  }

  /** Writing the value of a canonical digit string gives the string back. */
  lemma {:induction false} DecimalRoundTrip(s: string)
    requires |s| >= 1 && AllDigits(s) && (s[0] != '0' || s == "0")
    ensures Decimal(DecimalValue(s)) == s
  {
    var n := DecimalValue(s);
    if |s| == 1 {
      assert DigitChar(DigitValue(s[0])) == s[0];
    } else {
      var p := s[..|s| - 1];
      assert p[0] == s[0];
      DecimalRoundTrip(p);
      DecimalValueNoLeadingZero(p);
      assert n / 10 == DecimalValue(p);
      assert n % 10 == DigitValue(s[|s| - 1]);
      assert s == p + [s[|s| - 1]];
    }
  }

  /** A digit string that does not start with '0' and has two or more
      digits stands for a number of at least 10 (and at least 1 with one). */
  lemma {:induction false} DecimalValueNoLeadingZero(s: string)
    requires |s| >= 1 && AllDigits(s) && s[0] != '0'
    ensures DecimalValue(s) >= 1
  {
    if |s| > 1 {
      var p := s[..|s| - 1];
      assert p[0] == s[0];
      DecimalValueNoLeadingZero(p);
    } else {
      assert s[..0] == [];
    }
  }

  lemma ParseDecimalOfDecimal(n: nat)
    ensures ParseDecimal(Decimal(n)) == Some(n)
  {
    DecimalValueOfDecimal(n);
  }

  /** Different numbers have different decimal renderings. */
  lemma DecimalInjective(m: nat, n: nat)
    requires Decimal(m) == Decimal(n)
    ensures m == n
  {
    ParseDecimalOfDecimal(m);
    ParseDecimalOfDecimal(n);
  }
}

=== FILE: links.dfy ===
/** The two link helpers the server hands to every view: a WhatsApp
    "click to chat" link and a `tel:` link built from the business's phone
    numbers. */
module Links {

  import opened Seqs
  import opened JsText

  const WhatsAppPrefix := "https://wa.me/"
  const TelPrefix := "tel:"

  /** `waLink`: the prefix followed by the ASCII digits of the number, every
      other character (plus sign, spaces, dashes, brackets) removed. */
  function WaLink(number: string): (r: string)
    ensures |r| >= |WhatsAppPrefix| && r[..|WhatsAppPrefix|] == WhatsAppPrefix
    ensures AllDigits(r[|WhatsAppPrefix|..])
    ensures forall c :: multiset(r[|WhatsAppPrefix|..])[c] == (if IsAsciiDigit(c) then multiset(number)[c] else 0)
  {
    var digits := Digits(number);
    assert (WhatsAppPrefix + digits)[|WhatsAppPrefix|..] == digits;
    WhatsAppPrefix + digits
  }

  /** `telLink`: the prefix followed by the number with every white-space
      character removed and every other character kept. */
  function TelLink(number: string): (r: string)
    ensures |r| >= |TelPrefix| && r[..|TelPrefix|] == TelPrefix
    ensures forall i :: |TelPrefix| <= i < |r| ==> !IsJsSpace(r[i])
    ensures forall c :: multiset(r[|TelPrefix|..])[c] == (if IsJsSpace(c) then 0 else multiset(number)[c])
  {
    var kept := Unspaced(number);
    assert (TelPrefix + kept)[|TelPrefix|..] == kept;
    TelPrefix + kept
  }

  /** The ASCII digits of a number, in order. */
  function Digits(number: string): string {
    Filter(IsAsciiDigit, number)
  }

  /** The characters of a number other than white space, in order. */
  function Unspaced(number: string): string {
    Filter(IsNotJsSpace, number)
  }

  /** The digits of a number written in two parts are the digits of the first
      part followed by those of the second: the order of the digits is kept. */
  lemma WaLinkAppend(a: string, b: string)
    ensures WaLink(a + b)[|WhatsAppPrefix|..] == Digits(a) + Digits(b)
  {
    FilterAppend(IsAsciiDigit, a, b);
  }

  lemma TelLinkAppend(a: string, b: string)
    ensures TelLink(a + b)[|TelPrefix|..] == Unspaced(a) + Unspaced(b)
  {
    FilterAppend(IsNotJsSpace, a, b);
  }

  /** A number that is already bare digits appears in the link unchanged. */
  lemma WaLinkOfDigits(number: string)
    requires AllDigits(number)
    ensures WaLink(number) == WhatsAppPrefix + number
  {
    FilterAllKept(IsAsciiDigit, number);
  }

  /** A number without white space appears in the link unchanged. */
  lemma TelLinkOfUnspaced(number: string)
    requires forall i :: 0 <= i < |number| ==> !IsJsSpace(number[i])
    ensures TelLink(number) == TelPrefix + number
  {
    FilterAllKept(IsNotJsSpace, number);
  }

  /** Re-formatting the digits of a link gives the same link. */
  lemma WaLinkStable(number: string)
    ensures WaLink(WaLink(number)[|WhatsAppPrefix|..]) == WaLink(number)
  {
    FilterIdempotent(IsAsciiDigit, number);
  }
}

=== FILE: orders.dfy ===
/** The quote-request flow of the "make an order" form: the raw fields are
    normalised, validated into per-field messages, and a valid form becomes
    an order record put at the front of the stored list. The stored file is
    an abstract value (what reading and parsing it gave) and the clock
    reading is an input. */
module Orders {

  import opened Wrappers
  import opened JsText

  /** The fields of the form, by the names the request body uses. */
  datatype Field = FullName | Phone | Email | Address | ServiceType | PreferredDate | Details

  /** A body value as the extended URL-encoded parser delivers it: a string,
      or an array or object (from repeated or bracketed keys). A key missing
      from the body is a field missing from the map. */
  datatype RawValue = Text(s: string) | Structured

  type RawForm = map<Field, RawValue>

  /** The normalised form, echoed back on rejection and copied into the
      record on acceptance. */
  datatype Form = Form(
    fullName: string,
    phone: string,
    email: string,
    address: string,
    serviceType: string,
    preferredDate: string,
    details: string)
  {
    function Get(f: Field): string {
      match f
      case FullName => fullName
      case Phone => phone
      case Email => email
      case Address => address
      case ServiceType => serviceType
      case PreferredDate => preferredDate
      case Details => details
    }
  }

  /** A stored quote request: its display id, when it was created, and the
      form's fields. */
  datatype Order = Order(id: string, createdAt: string, form: Form)

  /** What reading and parsing the orders file gave: a failure (missing
      file, unreadable file, malformed JSON), a JSON value that is not an
      array, or an array of records. */
  datatype Stored = ReadFailed | NotAnArray | OrderList(orders: seq<Order>)

  /** The answer to one submission: the handler threw (a field that is not a
      string has no `trim`), the form was sent back with messages (HTTP 400),
      or the thank-you page shows the new record. */
  datatype Response = Crashed | Rejected(errors: map<Field, string>, form: Form) | Accepted(record: Order)

  /** A response together with what the orders file holds afterwards. */
  datatype Step = Step(response: Response, stored: Stored)

  const MinDetailsLength := 10
  const IdPrefix := "ORD-"

  const FullNameMessage := "Please enter your full name."
  const PhoneMessage := "Please enter a phone number."
  const ServiceTypeMessage := "Please choose a service."
  const DetailsMessage := "Please add at least 10 characters describing the job."

  /** The message shown against a field that fails validation. */
  function Message(f: Field): (m: Option<string>)
    ensures m.Some? <==> f == FullName || f == Phone || f == ServiceType || f == Details
  {
    match f
    case FullName => Some(FullNameMessage)
    case Phone => Some(PhoneMessage)
    case ServiceType => Some(ServiceTypeMessage)
    case Details => Some(DetailsMessage)
    case _ => None
  }

  /** `(body[f] || "").trim()`: a missing or empty field is the empty
      string, a string is trimmed, and anything else makes `trim` throw. */
  function NormaliseField(raw: RawForm, f: Field): (r: Option<string>)
    ensures r.None? <==> f in raw && raw[f].Structured?
    ensures r.Some? && f !in raw ==> r.value == ""
    ensures r.Some? && f in raw ==> r.value == Trim(raw[f].s)
  {
    if f !in raw then Some("")
    else match raw[f]
      case Text(s) => Some(Trim(s))
      case Structured => None
  }

  /** The seven fields are all there is: what holds of each holds of
      every field. */
  lemma FieldsCovered(raw: RawForm)
    requires NormaliseField(raw, FullName).Some? && NormaliseField(raw, Phone).Some?
    requires NormaliseField(raw, Email).Some? && NormaliseField(raw, Address).Some?
    requires NormaliseField(raw, ServiceType).Some? && NormaliseField(raw, PreferredDate).Some?
    requires NormaliseField(raw, Details).Some?
    ensures forall f :: f in raw ==> raw[f].Text?
  {
    forall f | f in raw ensures raw[f].Text? {
      match f
      case FullName =>
      case Phone =>
      case Email =>
      case Address =>
      case ServiceType =>
      case PreferredDate =>
      case Details =>
    }
  }

  lemma FormCovered(raw: RawForm, form: Form)
    requires NormaliseField(raw, FullName) == Some(form.fullName)
    requires NormaliseField(raw, Phone) == Some(form.phone)
    requires NormaliseField(raw, Email) == Some(form.email)
    requires NormaliseField(raw, Address) == Some(form.address)
    requires NormaliseField(raw, ServiceType) == Some(form.serviceType)
    requires NormaliseField(raw, PreferredDate) == Some(form.preferredDate)
    requires NormaliseField(raw, Details) == Some(form.details)
    ensures forall f :: NormaliseField(raw, f) == Some(form.Get(f))
  {
    forall f ensures NormaliseField(raw, f) == Some(form.Get(f)) {
      match f
      case FullName =>
      case Phone =>
      case Email =>
      case Address =>
      case ServiceType =>
      case PreferredDate =>
      case Details =>
    }
  }

  /** The form with every field normalised; None when some field is not a
      string. */
  function Normalise(raw: RawForm): (r: Option<Form>)
    ensures r.Some? <==> forall f :: f in raw ==> raw[f].Text?
    ensures r.Some? ==> forall f :: NormaliseField(raw, f) == Some(r.value.Get(f))
  {
    var fullName := NormaliseField(raw, FullName);
    var phone := NormaliseField(raw, Phone);
    var email := NormaliseField(raw, Email);
    var address := NormaliseField(raw, Address);
    var serviceType := NormaliseField(raw, ServiceType);
    var preferredDate := NormaliseField(raw, PreferredDate);
    var details := NormaliseField(raw, Details);
    if fullName.Some? && phone.Some? && email.Some? && address.Some?
      && serviceType.Some? && preferredDate.Some? && details.Some?
    then
      FieldsCovered(raw);
      var form := Form(fullName.value, phone.value, email.value, address.value,
                       serviceType.value, preferredDate.value, details.value);
      FormCovered(raw, form);
      Some(form)
    else
      None
  }

  /** Every field of a normalised form is the trim of what was posted, or
      "" when nothing was posted, so none begins or ends with white space. */
  lemma NormalisedFields(raw: RawForm)
    requires Normalise(raw).Some?
    ensures forall f :: f !in raw ==> Normalise(raw).value.Get(f) == ""
    ensures forall f :: f in raw ==> IsTrimOf(raw[f].s, Normalise(raw).value.Get(f))
    ensures forall f :: IsTrimmed(Normalise(raw).value.Get(f))
  {
    var form := Normalise(raw).value;
    forall f ensures IsTrimmed(form.Get(f)) {
      assert NormaliseField(raw, f) == Some(form.Get(f));
    }
  }

  /** The checks of the handler: name, phone and service type must be
      non-empty, and the details must be at least ten UTF-16 code units
      long. Email, address and preferred date are never checked. */
  function Validate(form: Form): (errors: map<Field, string>)
    ensures FullName in errors <==> form.fullName == ""
    ensures Phone in errors <==> form.phone == ""
    ensures ServiceType in errors <==> form.serviceType == ""
    ensures Details in errors <==> Utf16Length(form.details) < MinDetailsLength
    ensures Email !in errors && Address !in errors && PreferredDate !in errors
    ensures forall f :: f in errors ==> Message(f) == Some(errors[f])
  {
    var e0: map<Field, string> := map[];
    var e1 := if form.fullName == "" then e0[FullName := FullNameMessage] else e0;
    var e2 := if form.phone == "" then e1[Phone := PhoneMessage] else e1;
    var e3 := if form.serviceType == "" then e2[ServiceType := ServiceTypeMessage] else e2;
    var e4 := if form.details == "" || Utf16Length(form.details) < MinDetailsLength
              then e3[Details := DetailsMessage] else e3;
    e4
  }

  /** A form that passes validation. */
  predicate IsComplete(form: Form) {
    && form.fullName != ""
    && form.phone != ""
    && form.serviceType != ""
    && Utf16Length(form.details) >= MinDetailsLength
  }

  /** Validation reports nothing exactly for complete forms, and reports
      a message against each field that is wrong. */
  lemma ValidateEmptyIffComplete(form: Form)
    ensures Validate(form) == map[] <==> IsComplete(form)
    ensures !IsComplete(form) ==> |Validate(form)| > 0
  {
    var e := Validate(form);
    if !IsComplete(form) {
      assert FullName in e || Phone in e || ServiceType in e || Details in e;
    }
  }

  /** A required field posted as white space only counts as missing: the
      submission is sent back with that field's message. */
  lemma BlankRequiredFieldRejected(stored: Stored, raw: RawForm, now: string, f: Field)
    requires f == FullName || f == Phone || f == ServiceType || f == Details
    requires f in raw && raw[f].Text? && AllSpace(raw[f].s)
    requires forall g :: g in raw ==> raw[g].Text?
    ensures Submit(stored, raw, now).response.Rejected?
    ensures f in Submit(stored, raw, now).response.errors
    ensures Submit(stored, raw, now).stored == stored
  {
    TrimEmptyIffAllSpace(raw[f].s);
    var form := Normalise(raw).value;
    assert NormaliseField(raw, f) == Some(form.Get(f));
    assert form.Get(f) == "";
  }

  /** Details are measured in UTF-16 code units: five characters outside
      the Basic Multilingual Plane are long enough, nine plain ones are
      not. */
  lemma DetailsLengthInCodeUnits()
    ensures Utf16Length("\U{1F6BF}\U{1F6BF}\U{1F6BF}\U{1F6BF}\U{1F6BF}") >= MinDetailsLength
    ensures Utf16Length("leak tap!") < MinDetailsLength
  {
  }

  /** The display id of the n-th order: "ORD-" then n in decimal. */
  function OrderId(n: nat): (id: string)
    ensures |id| > |IdPrefix| && id[..|IdPrefix|] == IdPrefix
    ensures AllDigits(id[|IdPrefix|..]) && DecimalValue(id[|IdPrefix|..]) == n
    ensures id[|IdPrefix|] == '0' <==> n == 0
  {
    var id := IdPrefix + Decimal(n);
    assert id[|IdPrefix|..] == Decimal(n);
    DecimalValueOfDecimal(n);
    id
  }

  /** Reads the number back out of a display id. */
  function ParseOrderId(id: string): (r: Option<nat>)
    ensures r.Some? ==> id == OrderId(r.value)
  {
    if |id| > |IdPrefix| && id[..|IdPrefix|] == IdPrefix then
      var n := ParseDecimal(id[|IdPrefix|..]);
      if n.Some? then
        assert id == IdPrefix + id[|IdPrefix|..];
        Some(n.value)
      else None
    else None
  }

  lemma ParseOrderIdOfOrderId(n: nat)
    ensures ParseOrderId(OrderId(n)) == Some(n)
  {
    var id := OrderId(n);
    assert id[..|IdPrefix|] == IdPrefix;
    assert id[|IdPrefix|..] == Decimal(n);
    ParseDecimalOfDecimal(n);
  }

  /** Different positions get different ids. */
  lemma OrderIdInjective(m: nat, n: nat)
    requires OrderId(m) == OrderId(n)
    ensures m == n
  {
    ParseOrderIdOfOrderId(m);
    ParseOrderIdOfOrderId(n);
  }

  /** `safeReadOrders`: the parsed value when it is an array, and the empty
      list on a failure or any other JSON value. */
  function SafeReadOrders(stored: Stored): (orders: seq<Order>)
    ensures stored.OrderList? ==> orders == stored.orders
    ensures orders != [] ==> stored.OrderList?
  {
    match stored
    case OrderList(orders) => orders
    case _ => []
  }

  /** A submission whose form normalises and validates. */
  predicate Acceptable(raw: RawForm) {
    var form := Normalise(raw);
    form.Some? && IsComplete(form.value)
  }

  /** The POST handler of the order form. The orders file is read only once
      the form is valid; a valid form becomes a record numbered one past the
      stored list's length, stamped with `now`, put at the front of that
      list, and the whole list is written back. Otherwise the file is not
      touched. */
  function Submit(stored: Stored, raw: RawForm, now: string): (step: Step)
    ensures step.response.Crashed? <==> Normalise(raw).None?
    ensures step.response.Accepted? <==> Acceptable(raw)
    ensures step.response.Rejected? ==>
      && Normalise(raw) == Some(step.response.form)
      && |step.response.errors| > 0
      && step.response.errors == Validate(step.response.form)
    ensures !step.response.Accepted? ==> step.stored == stored
    ensures step.response.Accepted? ==>
      var record := step.response.record;
      var before := SafeReadOrders(stored);
      && ParseOrderId(record.id) == Some(|before| + 1)
      && record.createdAt == now
      && Some(record.form) == Normalise(raw)
      && step.stored.OrderList?
      && |step.stored.orders| == |before| + 1
      && step.stored.orders[0] == record
      && step.stored.orders[1..] == before
  {
    match Normalise(raw)
    case None => Step(Crashed, stored)
    case Some(form) =>
      var errors := Validate(form);
      if |errors| > 0 then
        ValidateEmptyIffComplete(form);
        Step(Rejected(errors, form), stored)
      else
        ValidateEmptyIffComplete(form);
        var orders := SafeReadOrders(stored);
        var record := Order(OrderId(|orders| + 1), now, form);
        ParseOrderIdOfOrderId(|orders| + 1);
        Step(Accepted(record), OrderList([record] + orders))
  }

  /** Each order carries the id of its position counted from the back:
      the last is ORD-1, the first is ORD-n for a list of n. */
  predicate WellNumbered(orders: seq<Order>) {
    forall i :: 0 <= i < |orders| ==> orders[i].id == OrderId(|orders| - i)
  }

  /** Ids of a well-numbered list are all different. */
  lemma WellNumberedIdsDistinct(orders: seq<Order>, i: nat, j: nat)
    requires WellNumbered(orders)
    requires i < j < |orders|
    ensures orders[i].id != orders[j].id
  {
    // the ids carry the different numbers |orders| - i and |orders| - j
  }

  /** Putting the next-numbered record in front of a well-numbered list
      keeps it well numbered. */
  lemma PrependKeepsNumbering(before: seq<Order>, record: Order)
    requires WellNumbered(before)
    requires record.id == OrderId(|before| + 1)
    ensures WellNumbered([record] + before)
  {
    var after := [record] + before;
    forall i | 0 <= i < |after|
      ensures after[i].id == OrderId(|after| - i)
    {
      if i > 0 {
        assert after[i] == before[i - 1];
      }
    }
  }

  /** A submission keeps the stored list well numbered. */
  lemma SubmitKeepsNumbering(stored: Stored, raw: RawForm, now: string)
    requires WellNumbered(SafeReadOrders(stored))
    ensures WellNumbered(SafeReadOrders(Submit(stored, raw, now).stored))
  {
    var step := Submit(stored, raw, now);
    if step.response.Accepted? {
      var before := SafeReadOrders(stored);
      var record := step.response.record;
      assert step.stored.orders == [record] + before;
      PrependKeepsNumbering(before, record);
    }
  }

  /** One submission: the posted body and the clock reading. */
  datatype Request = Request(raw: RawForm, now: string)

  /** The orders file after handling the requests one after another. */
  function Run(stored: Stored, requests: seq<Request>): Stored
    decreases |requests|
  {
    if requests == [] then stored
    else Run(Submit(stored, requests[0].raw, requests[0].now).stored, requests[1..])
  }

  /** How many of the requests carry an acceptable form. */
  function AcceptedCount(requests: seq<Request>): (n: nat)
    ensures n <= |requests|
  {
    if requests == [] then 0
    else (if Acceptable(requests[0].raw) then 1 else 0) + AcceptedCount(requests[1..])
  }

  /** Over a run, the list grows by one per accepted request and stays well
      numbered. */
  lemma {:induction false} RunKeepsNumbering(stored: Stored, requests: seq<Request>)
    requires WellNumbered(SafeReadOrders(stored))
    ensures WellNumbered(SafeReadOrders(Run(stored, requests)))
    ensures |SafeReadOrders(Run(stored, requests))| == |SafeReadOrders(stored)| + AcceptedCount(requests)
    decreases |requests|
  {
    if requests != [] {
      var next := Submit(stored, requests[0].raw, requests[0].now).stored;
      SubmitKeepsNumbering(stored, requests[0].raw, requests[0].now);
      RunKeepsNumbering(next, requests[1..]);
    }
  }

  /** Starting from a missing, unreadable or empty orders file, after k
      accepted submissions the list holds ORD-k, ..., ORD-1 from front to
      back, all different. */
  lemma RunFromEmpty(stored: Stored, requests: seq<Request>)
    requires SafeReadOrders(stored) == []
    ensures var orders := SafeReadOrders(Run(stored, requests));
      && |orders| == AcceptedCount(requests)
      && (forall i :: 0 <= i < |orders| ==> orders[i].id == IdPrefix + Decimal(AcceptedCount(requests) - i))
      && (forall i, j :: 0 <= i < j < |orders| ==> orders[i].id != orders[j].id)
  {
    RunKeepsNumbering(stored, requests);
    var orders := SafeReadOrders(Run(stored, requests));
    forall i, j | 0 <= i < j < |orders|
      ensures orders[i].id != orders[j].id
    {
      WellNumberedIdsDistinct(orders, i, j);
    }
  }
}

=== FILE: seqs.dfy ===
/** Sequence helpers shared by the link formatting (character filters) and
    the gallery (file-name filter). */
module Seqs {

  /** The elements of s that satisfy keep, in their original order
      (JavaScript's `Array.prototype.filter`, and `String.prototype.replace`
      with a global character-class pattern read the other way round). */
  function Filter<T(!new)>(keep: T -> bool, s: seq<T>): (r: seq<T>)
    ensures |r| <= |s|
    ensures forall i :: 0 <= i < |r| ==> keep(r[i])
    ensures forall x :: multiset(r)[x] == (if keep(x) then multiset(s)[x] else 0)
  {
    if s == [] then []
    else
      assert s == [s[0]] + s[1..];
      (if keep(s[0]) then [s[0]] else []) + Filter(keep, s[1..])
  }

  /** Filtering a concatenation filters each part and keeps them in order:
      the kept elements appear in the result in the order they had in s. */
  lemma {:induction false} FilterAppend<T(!new)>(keep: T -> bool, a: seq<T>, b: seq<T>)
    ensures Filter(keep, a + b) == Filter(keep, a) + Filter(keep, b)
  {
    if a == [] {
      assert a + b == b;
    } else {
      assert (a + b)[0] == a[0];
      assert (a + b)[1..] == a[1..] + b;
      FilterAppend(keep, a[1..], b);
    }
  }

  /** Nothing is dropped from a sequence whose elements all pass. */
  lemma {:induction false} FilterAllKept<T(!new)>(keep: T -> bool, s: seq<T>)
    requires forall i :: 0 <= i < |s| ==> keep(s[i])
    ensures Filter(keep, s) == s
  {
    if s != [] {
      FilterAllKept(keep, s[1..]);
    }
  }

  /** Filtering twice is filtering once. */
  lemma FilterIdempotent<T(!new)>(keep: T -> bool, s: seq<T>)
    ensures Filter(keep, Filter(keep, s)) == Filter(keep, s)
  {
    FilterAllKept(keep, Filter(keep, s));
  }
}

=== FILE: wrappers.dfy ===
/** The optional value used wherever the server either produces something
    or takes its failure path. */
module Wrappers {

  datatype Option<+T> = None | Some(value: T)
}
